=== FILE: README.md ===
# User table view state, in Dafny

This project models the UI-state logic of the user-table component library
(`UserTable`, `SearchField`, `UserSummary`). Rendering is not modelled.

- **`UserTable`** (`user_table.dfy`) holds the table's view state in a
  class, `TableState`. Its fields are the sort key and direction, page
  index, page size, text filter, status filter and column list. The
  handlers `RequestSort`, `ChangePage`, `ChangeRowsPerPage` and
  `StatusFilterChange` update those fields.
  - `DeriveView` is what one render computes: the text filter (a
    case-insensitive substring of `username`), the status filter (exact
    match, or the `"All"` sentinel), the in-place comparator sort, the
    `slice` page window, and the count given to the pagination control.
  - The comparator is modelled exactly (`Compare`). For `createdOn` and
    `updatedOn` it subtracts parsed instants; otherwise it returns -1 or 1
    from JavaScript's string `<`. Date parsing is a parameter
    `ts: string -> int` about which nothing is assumed.
  - `Array.prototype.sort` is modelled as an in-place insertion sort over
    an `array<User>`. It is proved to leave the array sorted under the
    comparator and a permutation of its input. That is all the source
    relies on, since the order of equal keys is unspecified.
  - Two renders of the same state are proved to show the same keys at
    every position (`SortedPermutationsAgree`): any two sorted
    permutations of one list tie row by row. When no two rows tie, they
    show the same rows on every page (`RendersAgreeWithoutTies`).
  - `slice` is modelled with JavaScript's full index clamping, so the
    window never faults.
- **`SearchField`** (`search_field.dfy`) is the filter popover, a class
  `FilterPopover`. Its fields are the visible-column list, the per-field
  search texts, the duration buckets, the badge count and whether the
  popover is open. Each handler is a method. Values passed to the parent
  through `setColumns`/`setFilter` are the methods' results.
- **`UserSummary`** (`user_summary.dfy`) is the summary panel. It has one
  field, `activeCard`, and `CardClick` toggles it and returns the category
  reported to the table, if any. `TableState.SummaryCardClick` and
  `TableState.ColumnCheckboxChange` model the wiring between the
  components.
- `seqs.dfy` (order-preserving filter, subsequence) and `text.dfy`
  (lower-casing, substring search, string order) hold the
  JavaScript primitives the components use.

The model follows the code where it is narrower than one might expect:
- only `username` is searched; `email` is not;
- an unparsable date is not treated as "smallest"; `ts` is left
  arbitrary;
- `setFilter` is called with a map from the popover, although the table
  handed down its string setter.

Behaviour the lemmas exhibit rather than correct:
- the temporary-users card clicks as `"NEW USERS"`, which the switch does
  not handle, so it reports no category (`CardCategories`);
- changing the status filter keeps the page index, so the window can be
  empty while the count is positive (`TableState.StatusFilterChange`
  keeps `page`, and `PageWindowSpec` makes the window empty once
  `page*size` reaches the count);
- deleting a duration chip deletes the same key from the search texts,
  not from the duration buckets (`FilterPopover.DeleteChip`);
- toggling a ticked column twice moves it to the end of the list
  (`TogglePresentTwice`).

A known defect is not modelled: `handleDeleteChip` passes a map to the
table's string setter (SearchField.tsx:63, UserTable.tsx:158). After that,
the table's next `filter.toLowerCase()` would be called on an object. The
model keeps the table's text filter a string and only returns the map
from `DeleteChip`.

## Model

| member | source | states |
|---|---|---|
| `Seqs.Filter` | src/components/UserTable/UserTable.tsx:80-84 | `Array.prototype.filter`: the result is no longer than the input and every element passes the test |
| `Seqs.SubsequenceMultiset` | src/components/UserTable/UserTable.tsx:80-84 | a subsequence holds no element more often than its source |
| `Seqs.SubsequenceTransitive` | src/components/UserTable/UserTable.tsx:80-84 | a subsequence of a subsequence is a subsequence, so the two chained filters keep the input order |
| `Seqs.FilterIsSubsequence` | src/components/UserTable/UserTable.tsx:80-84 | filtering keeps the survivors in their original relative order |
| `Seqs.FilterCount` | src/components/UserTable/UserTable.tsx:80-84 | every occurrence of a passing element is kept, no occurrence of a failing one |
| `Seqs.FilterMembership` | src/components/UserTable/UserTable.tsx:80-84 | an element is in the result if and only if it is in the input and passes |
| `Seqs.FilterKeepsAll` | src/components/UserTable/UserTable.tsx:84 | a test every element passes leaves the list unchanged |
| `Seqs.FilterAppend` | src/components/UserTable/SearchField.tsx:52-53 | filtering distributes over concatenation |
| `Seqs.FilterCongruent` | src/components/UserTable/UserTable.tsx:82 | two tests that agree on every element filter alike |
| `Seqs.PermutationsTie` | src/components/UserTable/UserTable.tsx:86-104 | two permutations of each other that are both in order under a reflexive, transitive relation tie position by position |
| `Text.LowerChar` | src/components/UserTable/UserTable.tsx:82 | `toLowerCase` on a character maps A-Z to a-z, leaves everything else, and never yields A-Z |
| `Text.Lower` | src/components/UserTable/UserTable.tsx:82 | `toLowerCase` keeps the length, maps each A-Z to its a-z letter, keeps every other character, and leaves no upper-case ASCII letter |
| `Text.LowerIdempotent` | src/components/UserTable/UserTable.tsx:82 | lower-casing twice is lower-casing once |
| `Text.ContainsIffOccurs` | src/components/UserTable/UserTable.tsx:82 | `includes` holds if and only if the needle occurs at some index of the haystack |
| `Text.ContainsEmpty` | src/components/UserTable/UserTable.tsx:82 | the empty string is included in every string |
| `Text.StrLessIrreflexive` | src/components/UserTable/UserTable.tsx:92-98 | no string is `<` itself |
| `Text.StrLessTransitive` | src/components/UserTable/UserTable.tsx:92-98 | string `<` is transitive |
| `Text.StrLessTrichotomy` | src/components/UserTable/UserTable.tsx:92-98 | two strings are equal or ordered one way or the other |
| `UserTable.FilterByText` | src/components/UserTable/UserTable.tsx:80-83 | every kept user's lower-cased username contains the lower-cased filter |
| `UserTable.FilterByStatus` | src/components/UserTable/UserTable.tsx:84 | every kept user has the filter's status, or the filter is "All" |
| `UserTable.TextFilterSpec` | src/components/UserTable/UserTable.tsx:80-83 | the text filter's result is an order-preserving subsequence of `users`; a user is kept, every time it occurs, if and only if it matches |
| `UserTable.TextFilterIgnoresCase` | src/components/UserTable/UserTable.tsx:82 | a filter and its lower-cased form select the same users |
| `UserTable.EmptyTextFilterKeepsAll` | src/components/UserTable/UserTable.tsx:80-83 | the initial empty filter keeps every user in order |
| `UserTable.StatusFilterSpec` | src/components/UserTable/UserTable.tsx:84 | "All" removes nobody; any other value keeps, in order, exactly the users with that status |
| `UserTable.FilterUsersSpec` | src/components/UserTable/UserTable.tsx:80-84 | `filteredUsers` is an order-preserving subsequence of `users` holding every occurrence of each user that passes both filters, and no other user |
| `UserTable.CompareMeaning` | src/components/UserTable/UserTable.tsx:86-99 | the comparator is negative exactly when the first user's key is smaller (ascending) or larger (descending): instants for `createdOn`/`updatedOn`, string order otherwise |
| `UserTable.InOrderTotal` | src/components/UserTable/UserTable.tsx:86-99 | of two users, at least one order is acceptable to the comparator |
| `UserTable.InOrderTransitive` | src/components/UserTable/UserTable.tsx:86-99 | acceptable order is transitive, so the comparator is a consistent "less than" |
| `UserTable.SortedIsPairwise` | src/components/UserTable/UserTable.tsx:86-99 | a list sorted between neighbours is sorted between every earlier and later row |
| `UserTable.SortedMeaning` | src/components/UserTable/UserTable.tsx:86-99 | in a sorted list, ascending, neighbours' instants never decrease and strings are equal or increasing; descending, the reverse |
| `UserTable.SwapKeepsRows` | src/components/UserTable/UserTable.tsx:86 | exchanging two neighbouring rows keeps the same multiset of rows |
| `UserTable.InsertRow` | src/components/UserTable/UserTable.tsx:86-99 | one insertion pass: if rows `0..i-1` are sorted, afterwards rows `0..i` are, the array holds the same users, and the rows after `i` are untouched |
| `UserTable.SortUsers` | src/components/UserTable/UserTable.tsx:86-99 | the in-place sort leaves the array sorted on the key and direction, holding the same users (same multiset) |
| `UserTable.SliceIndex` | src/components/UserTable/UserTable.tsx:101-104 | a `slice` index is clamped into `0..len` and a valid index is kept |
| `UserTable.Slice` | src/components/UserTable/UserTable.tsx:101-104 | `slice` never yields more rows than the list holds |
| `UserTable.PageWindowSpec` | src/components/UserTable/UserTable.tsx:101-104 | the window is `sorted[page*size .. min(len, page*size+size)]`, holds at most `size` rows, and is empty when `page*size >= len` |
| `UserTable.SliceWindow` | src/components/UserTable/UserTable.tsx:101-104 | `slice(start, start + size)` from a non-negative start is the clipped range and holds at most `size` rows |
| `UserTable.SliceAt` | src/components/UserTable/UserTable.tsx:101-104 | position `r` of that slice is row `start + r` whenever that row exists |
| `UserTable.PageOfIndex` | src/components/UserTable/UserTable.tsx:101-104 | row `i` is at position `i % size` of page `i / size`: paging skips no row |
| `UserTable.DeriveView` | src/components/UserTable/UserTable.tsx:80-104 | one render: the sorted rows are a sorted permutation of the two-stage filter's result, the page is its window, and the count for the pagination control (line 252) is the filtered length |
| `UserTable.SameKeyMeaning` | src/components/UserTable/UserTable.tsx:86-99 | two rows neither of which the comparator puts before the other carry the same instant (timestamp keys) or the same string |
| `UserTable.SortedPermutationsAgree` | src/components/UserTable/UserTable.tsx:80-104 | any two sorted permutations of the same rows, such as the sorted lists of two renders of one state, have the same length and tie on the key at every position: equal instants or equal strings |
| `UserTable.RendersAgreeWithoutTies` | src/components/UserTable/UserTable.tsx:80-104 | when no two different filtered rows tie on the key, two renders of the same state give the same sorted list and the same page |
| `UserTable.TwoRowsSorted` | src/components/UserTable/UserTable.tsx:86-99 | a sorted permutation of two distinct rows is the in-order pair |
| `UserTable.StoryUsersByCreatedOn` | src/components/UserTable/UserTable.stories.tsx:14-30 | the story's two users sorted on `createdOn`: the 2023-08-14 user first ascending, last descending |
| `UserTable.StoryUsersByUsername` | src/components/UserTable/UserTable.stories.tsx:14-30 | the story's two users sorted on `username` ascending: "gourab", then "ram" |
| `UserTable.SevenRowsFivePerPage` | src/components/UserTable/UserTable.tsx:101-104 | seven rows at five per page: rows 0-4, then rows 5-6, then none |
| `UserTable.UnknownStatusFallback` | src/components/UserTable/UserTable.tsx:106-117 | an "Archived" user is kept by "All", dropped by "Active", and gets the default chip colour |
| `UserTable.ChipColorOf` | src/components/UserTable/UserTable.tsx:106-117 | `getChipColor` is total: Active to success, Inactive to error, New to primary, anything else to default, each if and only if |
| `UserTable.NextSort` | src/components/UserTable/UserTable.tsx:59-63 | a header click sets `orderBy` to the property, and `order` to desc exactly when that property was already ascending |
| `UserTable.NewHeaderStartsAscending` | src/components/UserTable/UserTable.tsx:59-63 | clicking a header other than the current one sorts ascending on it |
| `UserTable.RepeatedClickFlips` | src/components/UserTable/UserTable.tsx:59-63 | once a header is current, each further click on it flips the direction |
| `UserTable.TableState.constructor` | src/components/UserTable/UserTable.tsx:44-57 | initial state: ascending on username, page 0, five rows, empty text filter, status "All", all five columns |
| `UserTable.TableState.RequestSort` | src/components/UserTable/UserTable.tsx:59-63 | the sort state becomes `NextSort` of the old one; nothing else changes |
| `UserTable.TableState.ChangePage` | src/components/UserTable/UserTable.tsx:65-67 | only the page index changes |
| `UserTable.TableState.ChangeRowsPerPage` | src/components/UserTable/UserTable.tsx:69-74 | the page size is set and the page index reset to 0; nothing else changes |
| `UserTable.TableState.StatusFilterChange` | src/components/UserTable/UserTable.tsx:76-78 | only the status filter changes; the page index is not reset |
| `UserTable.TableState.SetColumns` | src/components/UserTable/UserTable.tsx:51-57 | the `columns` setter changes only the column list |
| `UserTable.TableState.ColumnCheckboxChange` | src/components/UserTable/SearchField.tsx:50-57 | a popover checkbox toggles the popover's active list, and the table's columns become that same list; every other field of the popover and of the table keeps its value |
| `UserTable.TableState.SummaryCardClick` | src/components/UserTable/UserTable.tsx:130 | a card click toggles the panel's highlight and sets the status filter to the reported category, or leaves it when none is reported |
| `SearchField.ToggleColumn` | src/components/UserTable/SearchField.tsx:50-54 | after the toggle the column is present exactly when it was absent before |
| `SearchField.ToggleColumnSpec` | src/components/UserTable/SearchField.tsx:50-54 | a present column is removed everywhere, the others kept in order and multiplicity; an absent one is appended at the end; no other column's checkbox changes |
| `SearchField.ToggleAbsentTwice` | src/components/UserTable/SearchField.tsx:50-54 | toggling an absent column twice restores the original list |
| `SearchField.TogglePresentTwice` | src/components/UserTable/SearchField.tsx:50-54 | toggling a present column twice leaves the list without it and with it once at the end |
| `SearchField.NonEmptyKeys` | src/components/UserTable/SearchField.tsx:65-66 | the keys with a truthy search text are keys of the map |
| `SearchField.DurationsNeverCount` | src/components/UserTable/SearchField.tsx:42-46 | the applied count over the merged maps equals the number of non-empty search texts: durations never count |
| `SearchField.DeleteChipCount` | src/components/UserTable/SearchField.tsx:59-67 | deleting a key lowers the number of non-empty search texts by one exactly when that key's text was non-empty |
| `SearchField.FilterPopover.constructor` | src/components/UserTable/SearchField.tsx:21-30 | closed, no search texts, active list equal to the table's columns, count 0, no durations |
| `SearchField.FilterPopover.Close` | src/components/UserTable/SearchField.tsx:36-38 | the popover closes and nothing else changes |
| `SearchField.FilterPopover.ApplyFilter` | src/components/UserTable/SearchField.tsx:40-48 | the count becomes the number of non-empty search texts, the popover closes, nothing is emitted and the maps are unchanged |
| `SearchField.FilterPopover.ColumnChange` | src/components/UserTable/SearchField.tsx:50-57 | the active list is toggled, and the list returned for `setColumns` is that same list |
| `SearchField.FilterPopover.SearchInput` | src/components/UserTable/SearchField.tsx:131-136 | a search field's edit sets that one key of the search texts |
| `SearchField.FilterPopover.DeleteChip` | src/components/UserTable/SearchField.tsx:59-68 | exactly `key` leaves the search texts; durations are untouched; the map returned for `setFilter` is the new one and the count is recomputed from it |
| `SearchField.FilterPopover.DurationChange` | src/components/UserTable/SearchField.tsx:70-72 | one duration bucket is set and the others are kept |
| `UserSummary.NextActiveCard` | src/components/UserTable/UserSummary.tsx:63 | clicking the active card clears the highlight; clicking any other card makes it the active one |
| `UserSummary.CategoryFor` | src/components/UserTable/UserSummary.tsx:64-74 | a category is reported exactly for the total, active and inactive cards, and it is one of "All", "Active", "Inactive" |
| `UserSummary.CardCategories` | src/components/UserTable/UserSummary.tsx:62-74 | total reports "All", active "Active", inactive "Inactive"; of the four card keys only "NEW USERS" reports nothing |
| `UserSummary.Highlighted` | src/components/UserTable/UserSummary.tsx:91-127 | the highlighted cards are among the four card keys |
| `UserSummary.AtMostOneHighlighted` | src/components/UserTable/UserSummary.tsx:91-127 | card k is highlighted exactly when `activeCard === k`: at most one card, the active one, and no card when `activeCard` is null |
| `UserSummary.ClickHighlights` | src/components/UserTable/UserSummary.tsx:62-63 | after a click on a card, only that card is highlighted, or none when it was the highlighted one |
| `UserSummary.ClickTwice` | src/components/UserTable/UserSummary.tsx:63 | two clicks on one card clear the highlight, unless that card was highlighted before |
| `UserSummary.SummaryPanel.constructor` | src/components/UserTable/UserSummary.tsx:60 | no card is active at first |
| `UserSummary.SummaryPanel.CardClick` | src/components/UserTable/UserSummary.tsx:62-75 | the highlight toggles, and the reported category depends only on the card, so the total card reports "All" even on the click that deselects it |

## Left out

- All rendering: JSX, MUI widgets, icons, styles, the table/card view toggle (`handleViewChange`) and the popover's anchoring (`handleClick`). The view toggle does not affect the derived rows.
- `UserManagementCard` and the summary counts. They are constants for display.
- `FilterBar.tsx`, which forwards a click and picks colours. `dist/index.d.ts` is type declarations only.
- `new Date(...).getTime()` is the parameter `ts`, with any string giving some integer. The NaN of an unparsable date, which makes the comparator return NaN, is not modelled.
- `toLocaleDateString` is not part of this model.
- Text.Lower: handles the ASCII letters only. Unicode case mappings of `toLowerCase` (including ones that change the length) are not modelled.
- Text.LowerChar: maps only A-Z; the non-ASCII letters that `toLowerCase` also lower-cases are left as they are.
- Text.StrLess: compares Dafny characters (code points). JavaScript compares UTF-16 code units, which orders characters outside the Basic Multilingual Plane differently.
- UserTable.SortUsers: insertion sort stands in for the engine's sort. Only sortedness and permutation are claimed, so the order of equal keys is not modelled. The string comparator never returns 0, which makes it inconsistent in the ECMAScript sense. The model assumes the engine sorts by "comparator < 0", as a merge or insertion sort does.
- UserTable.TableState.ChangeRowsPerPage: takes the already parsed size; `parseInt` of the select's text is not modelled.
- UserTable.DeriveView: when two filtered rows tie on the sort key, two renders of the same state are proved to agree only on the key shown at each position (`SortedPermutationsAgree`), not on which of the tied rows appears there, because the engine's sort does not fix that order.
- UserTable.DeriveView: the text filter is a string. The map that `handleDeleteChip` passes to the same setter is not fed into the pipeline (see the defect described above).
- React's state scheduling and batching: each handler is one atomic state transition.
- The table's `columns` state is kept, but nothing reads it for rendering.

=== FILE: search_field.dfy ===
/**
 * The search and column-filter popover: the visible-column list, the
 * per-field search texts, the duration selections, and the count shown
 * on its badge.
 */
module SearchField {
  import opened Seqs

  /** The test `c !== column` of the column filter. */
  function OtherThan(column: string): string -> bool
  {
    c => c != column
  }

  /**
   * `handleColumnChange`'s new list: every occurrence of `column` removed
   * when it is present, otherwise `column` appended.
   */
  function ToggleColumn(columns: seq<string>, column: string): (r: seq<string>)
    ensures column in r <==> column !in columns
  {
    if column in columns then
      FilterMembership(columns, OtherThan(column), column);
      Filter(columns, OtherThan(column))
    else columns + [column]
  }

  /**
   * Removing keeps the other columns, each as often as before and in
   * their original order; adding puts the column at the end; no other
   * column changes its checkbox state.
   */
  lemma ToggleColumnSpec(columns: seq<string>, column: string)
    ensures column in columns ==>
              && IsSubsequence(ToggleColumn(columns, column), columns)
              && forall c :: c != column ==>
                   multiset(ToggleColumn(columns, column))[c] == multiset(columns)[c]
    ensures column !in columns ==> ToggleColumn(columns, column) == columns + [column]
    ensures forall c :: c != column ==> (c in ToggleColumn(columns, column) <==> c in columns)
  {
    if column in columns {
      FilterIsSubsequence(columns, OtherThan(column));
      forall c | c != column
        ensures multiset(ToggleColumn(columns, column))[c] == multiset(columns)[c]
        ensures c in ToggleColumn(columns, column) <==> c in columns
      {
        FilterCount(columns, OtherThan(column), c);
        FilterMembership(columns, OtherThan(column), c);
      }
    }
  }

  /** Ticking a box that was clear and then clearing it gives back the original list. */
  lemma ToggleAbsentTwice(columns: seq<string>, column: string)
    requires column !in columns
    ensures ToggleColumn(ToggleColumn(columns, column), column) == columns
  {
    FilterAppend(columns, [column], OtherThan(column));
    FilterKeepsAll(columns, OtherThan(column));
    assert Filter([column], OtherThan(column)) == [];
  }

  /**
   * Clearing a ticked box and ticking it again does not give back the
   * original list in general: the column moves to the end, and
   * duplicates of it are gone.
   */
  lemma TogglePresentTwice(columns: seq<string>, column: string)
    requires column in columns
    ensures ToggleColumn(ToggleColumn(columns, column), column) ==
            Filter(columns, OtherThan(column)) + [column]
  {
  }

  /** The keys whose search text is non-empty (a truthy string). */
  function NonEmptyKeys(m: map<string, string>): (r: set<string>)
    ensures r <= m.Keys
  {
    set k | k in m && m[k] != ""
  }

  /**
   * The count computed by `handleApplyFilter`: the keys of the merged
   * search and duration maps whose search text is truthy.
   */
  function AppliedCount(searchValues: map<string, string>, durationFilters: map<string, string>): nat
  {
    |set k | k in searchValues.Keys + durationFilters.Keys && k in searchValues && searchValues[k] != ""|
  }

  /** Duration selections never add to the badge count. */
  lemma DurationsNeverCount(searchValues: map<string, string>, durationFilters: map<string, string>)
    ensures AppliedCount(searchValues, durationFilters) == |NonEmptyKeys(searchValues)|
  {
    assert (set k | k in searchValues.Keys + durationFilters.Keys && k in searchValues && searchValues[k] != "")
        == NonEmptyKeys(searchValues);
  }

  /** Deleting a key lowers the count by one exactly when its text was non-empty. */
  lemma DeleteChipCount(m: map<string, string>, key: string)
    ensures |NonEmptyKeys(m - {key})| ==
            |NonEmptyKeys(m)| - if key in m && m[key] != "" then 1 else 0
  {
    if key in m && m[key] != "" {
      assert NonEmptyKeys(m - {key}) == NonEmptyKeys(m) - {key};
    } else {
      assert NonEmptyKeys(m - {key}) == NonEmptyKeys(m);
    }
  }

  /** The local state of the popover. `open` stands for `anchorEl !== null`. */
  class FilterPopover {
    var open: bool
    var searchValues: map<string, string>
    var activeFilters: seq<string>
    var filterCount: int
    var durationFilters: map<string, string>

    /** Mounting with the table's `columns`. */
    constructor (columns: seq<string>)
      ensures !open && searchValues == map[] && activeFilters == columns
      ensures filterCount == 0 && durationFilters == map[]
    {
      open := false;
      searchValues := map[];
      activeFilters := columns;
      filterCount := 0;
      durationFilters := map[];
    }

    /** `handleClose`: the anchor becomes null. */
    method Close()
      modifies this
      ensures !open
      ensures searchValues == old(searchValues) && activeFilters == old(activeFilters)
      ensures filterCount == old(filterCount) && durationFilters == old(durationFilters)
    {
      open := false;
    }

    /**
     * `handleApplyFilter`: recounts the non-empty search texts and closes
     * the popover; nothing is passed to the table.
     */
    method ApplyFilter()
      modifies this
      ensures filterCount == AppliedCount(searchValues, durationFilters)
      ensures filterCount == |NonEmptyKeys(searchValues)|
      ensures !open
      ensures searchValues == old(searchValues) && activeFilters == old(activeFilters)
      ensures durationFilters == old(durationFilters)
    {
      DurationsNeverCount(searchValues, durationFilters);
      filterCount := AppliedCount(searchValues, durationFilters);
      Close();
    }

    /**
     * `handleColumnChange`: toggles `column` in the active list and
     * returns the list passed to `setColumns`, which is the new list.
     */
    method ColumnChange(column: string) returns (newColumns: seq<string>)
      modifies this
      ensures activeFilters == ToggleColumn(old(activeFilters), column)
      ensures newColumns == activeFilters
      ensures open == old(open) && searchValues == old(searchValues)
      ensures filterCount == old(filterCount) && durationFilters == old(durationFilters)
    {
      newColumns := ToggleColumn(activeFilters, column);
      activeFilters := newColumns;
    }

    /** The search text field's change handler for `column`. */
    method SearchInput(column: string, value: string)
      modifies this
      ensures searchValues == old(searchValues)[column := value]
      ensures open == old(open) && activeFilters == old(activeFilters)
      ensures filterCount == old(filterCount) && durationFilters == old(durationFilters)
    {
      searchValues := searchValues[column := value];
    }

    /**
     * `handleDeleteChip`: removes `key` from the search texts only, even
     * for a duration chip; returns the map passed to `setFilter`, and
     * recounts from it.
     */
    method DeleteChip(key: string) returns (emitted: map<string, string>)
      modifies this
      ensures searchValues == old(searchValues) - {key}
      ensures emitted == searchValues
      ensures filterCount == |NonEmptyKeys(searchValues)|
      ensures durationFilters == old(durationFilters)
      ensures open == old(open) && activeFilters == old(activeFilters)
    {
      var updated := searchValues - {key};
      searchValues := updated;
      emitted := updated;
      filterCount := |NonEmptyKeys(updated)|;
    }

    /** `handleDurationChange`: sets one duration bucket, keeps the others. */
    method DurationChange(key: string, value: string)
      modifies this
      ensures durationFilters == old(durationFilters)[key := value]
      ensures open == old(open) && searchValues == old(searchValues)
      ensures activeFilters == old(activeFilters) && filterCount == old(filterCount)
    {
      durationFilters := durationFilters[key := value];
    }
  }
}

=== FILE: seqs.dfy ===
/**
 * Order-preserving filtering of sequences, the shape shared by the
 * `Array.prototype.filter` calls of the user table and of the column
 * list of the search popover; and the uniqueness, up to ties, of an
 * ordering of a sequence, which makes the table's sort repeatable.
 */
module Seqs {

  /** The elements of `s` that satisfy `keep`, in their original order. */
  function Filter<T>(s: seq<T>, keep: T -> bool): (r: seq<T>)
    ensures |r| <= |s|
    ensures forall i :: 0 <= i < |r| ==> keep(r[i])
  {
    if s == [] then []
    else if keep(s[0]) then [s[0]] + Filter(s[1..], keep)
    else Filter(s[1..], keep)
  }

  /**
   * `a` can be obtained from `b` by deleting elements, without reordering
   * the rest: either the heads match and the tails are related, or the
   * head of `b` is one of the deleted elements.
   */
  predicate IsSubsequence<T(==)>(a: seq<T>, b: seq<T>)
    decreases |b|
  {
    if a == [] then true
    else if b == [] then false
    else (a[0] == b[0] && IsSubsequence(a[1..], b[1..])) || IsSubsequence(a, b[1..])
  }

  /** A subsequence never holds an element more often than the sequence it comes from. */
  lemma {:induction false} SubsequenceMultiset<T>(a: seq<T>, b: seq<T>)
    requires IsSubsequence(a, b)
    ensures multiset(a) <= multiset(b)
    decreases |b|
  {
    if a != [] {
      assert b == [b[0]] + b[1..];
      if a[0] == b[0] && IsSubsequence(a[1..], b[1..]) {
        SubsequenceMultiset(a[1..], b[1..]);
        assert a == [a[0]] + a[1..];
      } else {
        SubsequenceMultiset(a, b[1..]);
      }
    }
  }

  /** A subsequence of a subsequence is a subsequence. */
  lemma {:induction false} SubsequenceTransitive<T>(a: seq<T>, b: seq<T>, c: seq<T>)
    requires IsSubsequence(a, b) && IsSubsequence(b, c)
    ensures IsSubsequence(a, c)
    decreases |c|
  {
    if a != [] {
      if b[0] == c[0] && IsSubsequence(b[1..], c[1..]) {
        if a[0] == b[0] && IsSubsequence(a[1..], b[1..]) {
          SubsequenceTransitive(a[1..], b[1..], c[1..]);
        } else {
          SubsequenceTransitive(a, b[1..], c[1..]);
        }
      } else {
        SubsequenceTransitive(a, b, c[1..]);
      }
    }
  }

  /** Filtering keeps the survivors in their original relative order. */
  lemma {:induction false} FilterIsSubsequence<T>(s: seq<T>, keep: T -> bool)
    ensures IsSubsequence(Filter(s, keep), s)
  {
    if s != [] {
      FilterIsSubsequence(s[1..], keep);
      var rest := Filter(s[1..], keep);
      if keep(s[0]) {
        assert ([s[0]] + rest)[1..] == rest;
      }
    }
  }

  /**
   * Filtering keeps every occurrence of an element that satisfies `keep`
   * and no occurrence of one that does not.
   */
  lemma {:induction false} FilterCount<T>(s: seq<T>, keep: T -> bool, x: T)
    ensures multiset(Filter(s, keep))[x] == if keep(x) then multiset(s)[x] else 0
  {
    if s != [] {
      FilterCount(s[1..], keep, x);
      assert s == [s[0]] + s[1..];
      if keep(s[0]) {
        assert Filter(s, keep) == [s[0]] + Filter(s[1..], keep);
      }
    }
  }

  /** Membership in a filtered sequence, in both directions. */
  lemma FilterMembership<T>(s: seq<T>, keep: T -> bool, x: T)
    ensures x in Filter(s, keep) <==> x in s && keep(x)
  {
  }

  /** A filter that every element passes changes nothing. */
  lemma {:induction false} FilterKeepsAll<T>(s: seq<T>, keep: T -> bool)
    requires forall i :: 0 <= i < |s| ==> keep(s[i])
    ensures Filter(s, keep) == s
  {
    if s != [] {
      FilterKeepsAll(s[1..], keep);
      assert [s[0]] + s[1..] == s;
    }
  }

  /** Filtering distributes over concatenation. */
  lemma {:induction false} FilterAppend<T>(a: seq<T>, b: seq<T>, keep: T -> bool)
    ensures Filter(a + b, keep) == Filter(a, keep) + Filter(b, keep)
  {
    if a == [] {
      assert a + b == b;
    } else {
      var ab := a + b;
      assert ab[0] == a[0] && ab[1..] == a[1..] + b;
      FilterAppend(a[1..], b, keep);
      if keep(a[0]) {
        calc {
          Filter(ab, keep);
          [a[0]] + Filter(a[1..] + b, keep);
          [a[0]] + (Filter(a[1..], keep) + Filter(b, keep));
          ([a[0]] + Filter(a[1..], keep)) + Filter(b, keep);
        }
      }
    }
  }

  /** Filtering depends only on which elements pass, not on how the test is written. */
  lemma {:induction false} FilterCongruent<T>(s: seq<T>, keep: T -> bool, keep': T -> bool)
    requires forall x :: keep(x) == keep'(x)
    ensures Filter(s, keep) == Filter(s, keep')
  {
    if s != [] {
      FilterCongruent(s[1..], keep, keep');
    }
  }

  /** Every earlier element is at or before every later one under `le`. */
  predicate PairwiseBy<T>(s: seq<T>, le: (T, T) -> bool)
  {
    forall p, q :: 0 <= p < q < |s| ==> le(s[p], s[q])
  }

  /** `le` is reflexive and transitive: a total preorder once it is also total. */
  ghost predicate Preorder<T(!new)>(le: (T, T) -> bool)
  {
    && (forall a :: le(a, a))
    && (forall a, b, c :: le(a, b) && le(b, c) ==> le(a, c))
  }

  /** The sequence with element `j` taken out. */
  function Without<T>(s: seq<T>, j: int): (r: seq<T>)
    requires 0 <= j < |s|
    ensures |r| == |s| - 1
    ensures forall i :: 0 <= i < |r| ==> r[i] == if i < j then s[i] else s[i + 1]
    ensures multiset(r) == multiset(s) - multiset{s[j]}
  {
    assert s == s[..j] + [s[j]] + s[j + 1..];
    s[..j] + s[j + 1..]
  }

  /** Taking an element out keeps the rest in order. */
  lemma WithoutKeepsOrder<T>(s: seq<T>, j: int, le: (T, T) -> bool)
    requires 0 <= j < |s| && PairwiseBy(s, le)
    ensures PairwiseBy(Without(s, j), le)
  {
    var t := Without(s, j);
    forall p, q | 0 <= p < q < |t|
      ensures le(t[p], t[q])
    {
      var p', q' := if p < j then p else p + 1, if q < j then q else q + 1;
      assert t[p] == s[p'] && t[q] == s[q'];
    }
  }

  /** Dropping the first element keeps the rest in order. */
  lemma TailKeepsOrder<T>(s: seq<T>, le: (T, T) -> bool)
    requires s != [] && PairwiseBy(s, le)
    ensures PairwiseBy(s[1..], le)
  {
    forall p, q | 0 <= p < q < |s| - 1
      ensures le(s[1..][p], s[1..][q])
    {
      assert s[1..][p] == s[p + 1] && s[1..][q] == s[q + 1];
    }
  }

  /** The first element of an ordered sequence is at or before every element of any permutation of it. */
  lemma FirstIsLeast<T>(r1: seq<T>, r2: seq<T>, le: (T, T) -> bool)
    requires r1 != [] && multiset(r1) == multiset(r2) && PairwiseBy(r1, le) && le(r1[0], r1[0])
    ensures forall k :: 0 <= k < |r2| ==> le(r1[0], r2[k])
  {
    forall k | 0 <= k < |r2|
      ensures le(r1[0], r2[k])
    {
      assert r2[k] in multiset(r1);
      var m :| 0 <= m < |r1| && r1[m] == r2[k];
    }
  }

  /**
   * The step of `PermutationsTie`: `r1[0]` sits at `j` in `r2`, the
   * elements of `r2` up to `j` tie with it, and the rest of `r1` ties with
   * `r2` without element `j`; then `r1` ties with `r2` position by position.
   */
  lemma TieShift<T(!new)>(r1: seq<T>, r2: seq<T>, j: int, le: (T, T) -> bool)
    requires Preorder(le)
    requires 0 <= j < |r2| == |r1| && r2[j] == r1[0]
    requires forall k :: 0 <= k <= j ==> le(r2[k], r2[j]) && le(r2[j], r2[k])
    requires forall i :: 0 < i <= j ==> le(r1[i], r2[i - 1]) && le(r2[i - 1], r1[i])
    requires forall i :: j < i < |r1| ==> le(r1[i], r2[i]) && le(r2[i], r1[i])
    ensures forall i :: 0 <= i < |r1| ==> le(r1[i], r2[i]) && le(r2[i], r1[i])
  {
    forall i | 0 <= i < |r1|
      ensures le(r1[i], r2[i]) && le(r2[i], r1[i])
    {
      if i == 0 {
        assert le(r2[0], r2[j]) && le(r2[j], r2[0]);
      } else if i <= j {
        var t, x := r2[i - 1], r2[j];
        assert le(t, x) && le(x, t) && le(r2[i], x) && le(x, r2[i]);
        assert le(r1[i], x) && le(x, r1[i]);
      }
    }
  }

  /**
   * Where the first element of `r1` sits in `r2`, and what is left on
   * both sides once it is taken out: two ordered permutations again.
   */
  lemma PeelFirst<T>(r1: seq<T>, r2: seq<T>, le: (T, T) -> bool) returns (j: int)
    requires r1 != [] && multiset(r1) == multiset(r2) && le(r1[0], r1[0])
    requires PairwiseBy(r1, le) && PairwiseBy(r2, le)
    ensures 0 <= j < |r2| && r2[j] == r1[0]
    ensures forall k :: 0 <= k < |r2| ==> le(r1[0], r2[k])
    ensures multiset(r1[1..]) == multiset(Without(r2, j))
    ensures PairwiseBy(r1[1..], le) && PairwiseBy(Without(r2, j), le)
  {
    assert r1[0] in multiset(r2);
    j :| 0 <= j < |r2| && r2[j] == r1[0];
    FirstIsLeast(r1, r2, le);
    WithoutKeepsOrder(r2, j, le);
    TailKeepsOrder(r1, le);
    assert r1 == [r1[0]] + r1[1..];
  }

  /**
   * From the ties of the two remainders to the ties of the whole
   * sequences: the elements of `r2` before `j` tie with `r1[0]`, which
   * shifts every tie below `j` by one place.
   */
  lemma TieStep<T(!new)>(r1: seq<T>, r2: seq<T>, j: int, le: (T, T) -> bool)
    requires Preorder(le) && PairwiseBy(r2, le)
    requires 0 <= j < |r2| == |r1| && r2[j] == r1[0]
    requires forall k :: 0 <= k < |r2| ==> le(r1[0], r2[k])
    requires forall i :: 0 <= i < |r1| - 1 ==>
               le(r1[1..][i], Without(r2, j)[i]) && le(Without(r2, j)[i], r1[1..][i])
    ensures forall i :: 0 <= i < |r1| ==> le(r1[i], r2[i]) && le(r2[i], r1[i])
  {
    var rest1, rest2 := r1[1..], Without(r2, j);
    forall i | 0 < i < |r1|
      ensures i <= j ==> le(r1[i], r2[i - 1]) && le(r2[i - 1], r1[i])
      ensures j < i ==> le(r1[i], r2[i]) && le(r2[i], r1[i])
    {
      assert r1[i] == rest1[i - 1];
      assert rest2[i - 1] == if i - 1 < j then r2[i - 1] else r2[i];
    }
    TieShift(r1, r2, j, le);
  }

  /**
   * Two permutations of each other that are both ordered by a preorder
   * tie position by position: neither element comes strictly before the
   * other.
   */
  lemma {:induction false} PermutationsTie<T(!new)>(r1: seq<T>, r2: seq<T>, le: (T, T) -> bool)
    requires Preorder(le) && multiset(r1) == multiset(r2)
    requires PairwiseBy(r1, le) && PairwiseBy(r2, le)
    ensures |r1| == |r2|
    ensures forall i :: 0 <= i < |r1| ==> le(r1[i], r2[i]) && le(r2[i], r1[i])
    decreases |r1|
  {
    assert |r1| == |multiset(r1)| == |multiset(r2)| == |r2|;
    if r1 != [] {
      var j := PeelFirst(r1, r2, le);
      PermutationsTie(r1[1..], Without(r2, j), le);
      TieStep(r1, r2, j, le);
    }
  }
}

=== FILE: text.dfy ===
/**
 * The string operations the user table relies on: `toLowerCase`,
 * `includes` (substring search) and the relational `<` of JavaScript
 * strings (lexicographic order of character codes).
 */
module Text {

  /** `toLowerCase` on one character; only the ASCII letters A-Z change. */
  function LowerChar(c: char): (r: char)
    ensures 'A' <= c <= 'Z' ==> r as int == c as int + 32
    ensures !('A' <= c <= 'Z') ==> r == c
    ensures !('A' <= r <= 'Z')
  {
    if 'A' <= c <= 'Z' then (c as int + 32) as char else c
  }

  /** `toLowerCase` on a string, character by character. */
  function Lower(s: string): (r: string)
    ensures |r| == |s|
    ensures forall i :: 0 <= i < |s| && 'A' <= s[i] <= 'Z' ==> r[i] as int == s[i] as int + 32
    ensures forall i :: 0 <= i < |s| && !('A' <= s[i] <= 'Z') ==> r[i] == s[i]
    ensures forall i :: 0 <= i < |s| ==> !('A' <= r[i] <= 'Z')
  {
    seq(|s|, i requires 0 <= i < |s| => LowerChar(s[i]))
  }

  /** Lower-casing a lower-cased string changes nothing. */
  lemma LowerIdempotent(s: string)
    ensures Lower(Lower(s)) == Lower(s)
  {
  }

  /** `p` is an initial segment of `s`. */
  predicate IsPrefix(p: string, s: string)
  {
    |p| <= |s| && s[..|p|] == p
  }

  /** `s.includes(t)`: some suffix of `s` starts with `t`. */
  predicate Contains(s: string, t: string)
    decreases |s|
  {
    IsPrefix(t, s) || (s != [] && Contains(s[1..], t))
  }

  /** `t` occurs in `s` starting at index `i`. */
  predicate OccursAt(s: string, t: string, i: int)
  {
    0 <= i && i + |t| <= |s| && s[i..i + |t|] == t
  }

  /** `Contains` agrees with the positional definition of a substring. */
  lemma {:induction false} ContainsIffOccurs(s: string, t: string)
    ensures Contains(s, t) <==> exists i :: OccursAt(s, t, i)
    decreases |s|
  {
    if IsPrefix(t, s) {
      assert OccursAt(s, t, 0);
    } else if s != [] {
      ContainsIffOccurs(s[1..], t);
      if Contains(s[1..], t) {
        var i :| OccursAt(s[1..], t, i);
        assert s[1..][i..i + |t|] == s[i + 1..i + 1 + |t|];
        assert OccursAt(s, t, i + 1);
      }
      assert !OccursAt(s, t, 0);
      forall i | OccursAt(s, t, i) && i > 0 ensures Contains(s, t) {
        assert s[1..][i - 1..i - 1 + |t|] == s[i..i + |t|];
        assert OccursAt(s[1..], t, i - 1);
      }
    }
  }

  /** The empty string occurs in every string. */
  lemma ContainsEmpty(s: string)
    ensures Contains(s, "")
  {
  }

  /** JavaScript's `a < b` on strings: lexicographic on character codes, a proper prefix first. */
  predicate StrLess(a: string, b: string)
    decreases |a|
  {
    if a == [] then b != []
    else if b == [] then false
    else if a[0] < b[0] then true
    else if a[0] == b[0] then StrLess(a[1..], b[1..])
    else false
  }

  lemma {:induction false} StrLessIrreflexive(a: string)
    ensures !StrLess(a, a)
    decreases |a|
  {
    if a != [] {
      StrLessIrreflexive(a[1..]);
    }
  }

  lemma {:induction false} StrLessTransitive(a: string, b: string, c: string)
    requires StrLess(a, b) && StrLess(b, c)
    ensures StrLess(a, c)
    decreases |a|
  {
    if a != [] && a[0] == b[0] && b[0] == c[0] {
      StrLessTransitive(a[1..], b[1..], c[1..]);
    }
  }

  /** Any two different strings are ordered one way or the other. */
  lemma {:induction false} StrLessTrichotomy(a: string, b: string)
    ensures a == b || StrLess(a, b) || StrLess(b, a)
    decreases |a|
  {
    if a != [] && b != [] && a[0] == b[0] {
      StrLessTrichotomy(a[1..], b[1..]);
      if a[1..] == b[1..] {
        assert a == [a[0]] + a[1..] && b == [b[0]] + b[1..];
      }
    }
  }
}

=== FILE: user_summary.dfy ===
/**
 * The summary panel above the user table: four cards, at most one of
 * them highlighted, and a click on a card reports a status category to
 * the table.
 */
module UserSummary {

  datatype Option<T> = None | Some(value: T)

  /** The keys the four cards pass to the click handler and compare for their highlight. */
  const TotalUsers: string := "TOTAL USERS"
  const ActiveUsers: string := "ACTIVE USERS"
  const InactiveUsers: string := "INACTIVE USERS"
  /** Key of the card titled "TEMPORARY USERS": it clicks and highlights as "NEW USERS". */
  const NewUsers: string := "NEW USERS"

  const CardKeys: seq<string> := [TotalUsers, ActiveUsers, InactiveUsers, NewUsers]

  /** The status sentinel that makes the table's status filter keep everyone. */
  const AllStatuses: string := "All"

  /** The new `activeCard` after a click on the card with key `title`. */
  function NextActiveCard(active: Option<string>, title: string): (r: Option<string>)
    ensures r == None <==> active == Some(title)
    ensures r != None ==> r == Some(title)
  {
    if active == Some(title) then None else Some(title)
  }

  /** The category passed to `onFilterChange` by a click, or `None` when the switch has no case. */
  function CategoryFor(title: string): (r: Option<string>)
    ensures r.Some? <==> title in {TotalUsers, ActiveUsers, InactiveUsers}
    ensures r.Some? ==> r.value in {AllStatuses, "Active", "Inactive"}
  {
    if title == TotalUsers then Some(AllStatuses)
    else if title == ActiveUsers then Some("Active")
    else if title == InactiveUsers then Some("Inactive")
    else None
  }

  /** What each of the four cards reports; the temporary-users card reports nothing. */
  lemma CardCategories()
    ensures CategoryFor(TotalUsers) == Some(AllStatuses)
    ensures CategoryFor(ActiveUsers) == Some("Active")
    ensures CategoryFor(InactiveUsers) == Some("Inactive")
    ensures CategoryFor(NewUsers) == None
    ensures forall k :: k in CardKeys ==> (CategoryFor(k) == None <==> k == NewUsers)
  {
  }

  /** The cards drawn highlighted for a given `activeCard`. */
  function Highlighted(active: Option<string>): (r: set<string>)
    ensures r <= set k | k in CardKeys
  {
    set k | k in CardKeys && active == Some(k)
  }

  /** No two cards are highlighted at once, and the highlighted one is the active card. */
  lemma AtMostOneHighlighted(active: Option<string>)
    ensures |Highlighted(active)| <= 1
    ensures forall k :: k in Highlighted(active) ==> active == Some(k)
    ensures active.Some? && active.value in CardKeys ==> Highlighted(active) == {active.value}
    ensures active.None? ==> Highlighted(active) == {}
  {
    var h := Highlighted(active);
    if active.Some? {
      assert h <= {active.value};
      if active.value in CardKeys {
        assert h == {active.value};
      } else {
        assert h == {};
      }
    } else {
      assert h == {};
    }
  }

  /**
   * After a click on a card, that card alone is highlighted, unless it was
   * the highlighted one, in which case no card is.
   */
  lemma ClickHighlights(active: Option<string>, title: string)
    requires title in CardKeys
    ensures Highlighted(NextActiveCard(active, title)) ==
            if active == Some(title) then {} else {title}
  {
    AtMostOneHighlighted(NextActiveCard(active, title));
  }

  /**
   * Clicking one card twice clears the highlight, except when the card was
   * highlighted before, when it is highlighted again.
   */
  lemma ClickTwice(active: Option<string>, title: string)
    ensures NextActiveCard(NextActiveCard(active, title), title) ==
            if active == Some(title) then active else None
  {
  }

  /** The one piece of state of the panel: the key of the highlighted card, if any. */
  class SummaryPanel {
    var activeCard: Option<string>

    constructor ()
      ensures activeCard == None
    {
      activeCard := None;
    }

    /**
     * A click on the card with key `title`: toggles the highlight and
     * returns what is reported to `onFilterChange` (`None`: no call).
     */
    method CardClick(title: string) returns (emitted: Option<string>)
      modifies this
      ensures activeCard == NextActiveCard(old(activeCard), title)
      ensures emitted == CategoryFor(title)
    {
      activeCard := if activeCard == Some(title) then None else Some(title);
      if title == TotalUsers {
        emitted := Some(AllStatuses);
      } else if title == ActiveUsers {
        emitted := Some("Active");
      } else if title == InactiveUsers {
        emitted := Some("Inactive");
      } else {
        emitted := None;
      }
    }
  }
}

=== FILE: user_table.dfy ===
/**
 * The user table: its view state, and the view it derives from the list
 * of users on every render (text filter, then status filter, then sort,
 * then the page window).
 */
module UserTable {
  import opened Seqs
  import opened Text
  import UserSummary
  import SearchField

  /** One row of the table; all fields are strings, timestamps included. */
  datatype User = User(
    id: string,
    username: string,
    createdOn: string,
    updatedOn: string,
    email: string,
    status: string)

  /** `keyof User`: the field the table is sorted on. */
  datatype SortKey = Id | Username | CreatedOn | UpdatedOn | Email | Status

  datatype Order = Asc | Desc

  /** `user[key]`. */
  function Field(u: User, key: SortKey): string
  {
    match key
    case Id => u.id
    case Username => u.username
    case CreatedOn => u.createdOn
    case UpdatedOn => u.updatedOn
    case Email => u.email
    case Status => u.status
  }

  predicate IsTimeKey(key: SortKey)
  {
    key == CreatedOn || key == UpdatedOn
  }

  // ---------------------------------------------------------------------
  // Stage 1 and 2: the two filters

  /** A user survives the text filter when its lower-cased username contains the lower-cased filter. */
  predicate MatchesText(u: User, filter: string)
  {
    Contains(Lower(u.username), Lower(filter))
  }

  /** A user survives the status filter when the filter is "All" or equals its status. */
  predicate MatchesStatus(u: User, statusFilter: string)
  {
    statusFilter == UserSummary.AllStatuses || u.status == statusFilter
  }

  function TextKeep(filter: string): User -> bool
  {
    u => MatchesText(u, filter)
  }

  function StatusKeep(statusFilter: string): User -> bool
  {
    u => MatchesStatus(u, statusFilter)
  }

  function FilterByText(users: seq<User>, filter: string): (r: seq<User>)
    ensures forall i :: 0 <= i < |r| ==> MatchesText(r[i], filter)
  {
    Filter(users, TextKeep(filter))
  }

  function FilterByStatus(users: seq<User>, statusFilter: string): (r: seq<User>)
    ensures forall i :: 0 <= i < |r| ==> MatchesStatus(r[i], statusFilter)
  {
    Filter(users, StatusKeep(statusFilter))
  }

  /** `filteredUsers`: the text filter followed by the status filter. */
  function FilterUsers(users: seq<User>, filter: string, statusFilter: string): seq<User>
  {
    FilterByStatus(FilterByText(users, filter), statusFilter)
  }

  /**
   * The text filter keeps an order-preserving subsequence of `users`,
   * holding every occurrence of each user whose username contains the
   * filter, ignoring case, and no other user.
   */
  lemma TextFilterSpec(users: seq<User>, filter: string)
    ensures IsSubsequence(FilterByText(users, filter), users)
    ensures forall u :: multiset(FilterByText(users, filter))[u] ==
                          if MatchesText(u, filter) then multiset(users)[u] else 0
    ensures forall u :: u in FilterByText(users, filter) <==> u in users && MatchesText(u, filter)
  {
    FilterIsSubsequence(users, TextKeep(filter));
    forall u
      ensures multiset(FilterByText(users, filter))[u] ==
              if MatchesText(u, filter) then multiset(users)[u] else 0
      ensures u in FilterByText(users, filter) <==> u in users && MatchesText(u, filter)
    {
      FilterCount(users, TextKeep(filter), u);
      FilterMembership(users, TextKeep(filter), u);
    }
  }

  /** Upper or lower case in the filter text makes no difference. */
  lemma TextFilterIgnoresCase(users: seq<User>, filter: string)
    ensures FilterByText(users, Lower(filter)) == FilterByText(users, filter)
  {
    LowerIdempotent(filter);
    FilterCongruent(users, TextKeep(Lower(filter)), TextKeep(filter));
  }

  /** The initial, empty text filter removes nobody. */
  lemma EmptyTextFilterKeepsAll(users: seq<User>)
    ensures FilterByText(users, "") == users
  {
    forall i | 0 <= i < |users|
      ensures TextKeep("")(users[i])
    {
      assert Lower("") == "";
      ContainsEmpty(Lower(users[i].username));
    }
    FilterKeepsAll(users, TextKeep(""));
  }

  /**
   * With the "All" sentinel the status filter removes nobody; with any
   * other value it keeps, in order, exactly the users with that status.
   */
  lemma StatusFilterSpec(users: seq<User>, statusFilter: string)
    ensures statusFilter == UserSummary.AllStatuses ==> FilterByStatus(users, statusFilter) == users
    ensures IsSubsequence(FilterByStatus(users, statusFilter), users)
    ensures statusFilter != UserSummary.AllStatuses ==>
              forall u :: multiset(FilterByStatus(users, statusFilter))[u] ==
                            if u.status == statusFilter then multiset(users)[u] else 0
  {
    FilterIsSubsequence(users, StatusKeep(statusFilter));
    if statusFilter == UserSummary.AllStatuses {
      FilterKeepsAll(users, StatusKeep(statusFilter));
    } else {
      forall u
        ensures multiset(FilterByStatus(users, statusFilter))[u] ==
                if u.status == statusFilter then multiset(users)[u] else 0
      {
        FilterCount(users, StatusKeep(statusFilter), u);
      }
    }
  }

  /**
   * `filteredUsers` is an order-preserving subsequence of `users` holding
   * every occurrence of each user that passes both filters, and no other
   * user.
   */
  lemma FilterUsersSpec(users: seq<User>, filter: string, statusFilter: string)
    ensures IsSubsequence(FilterUsers(users, filter, statusFilter), users)
    ensures forall u :: multiset(FilterUsers(users, filter, statusFilter))[u] ==
                          if MatchesText(u, filter) && MatchesStatus(u, statusFilter)
                          then multiset(users)[u] else 0
  {
    var byText := FilterByText(users, filter);
    TextFilterSpec(users, filter);
    FilterIsSubsequence(byText, StatusKeep(statusFilter));
    SubsequenceTransitive(FilterUsers(users, filter, statusFilter), byText, users);
    forall u
      ensures multiset(FilterUsers(users, filter, statusFilter))[u] ==
              if MatchesText(u, filter) && MatchesStatus(u, statusFilter)
              then multiset(users)[u] else 0
    {
      FilterCount(byText, StatusKeep(statusFilter), u);
    }
  }

  // ---------------------------------------------------------------------
  // Stage 3: the sort

  /**
   * The comparator handed to `Array.prototype.sort`: a difference of
   * parsed instants for the two timestamp fields, otherwise -1 or 1 from
   * the string order (never 0, not even for equal strings). `ts` stands
   * for `new Date(s).getTime()`.
   */
  function Compare(a: User, b: User, key: SortKey, dir: Order, ts: string -> int): int
  {
    if IsTimeKey(key) then
      if dir == Asc then ts(Field(a, key)) - ts(Field(b, key))
      else ts(Field(b, key)) - ts(Field(a, key))
    else if dir == Asc then
      if StrLess(Field(a, key), Field(b, key)) then -1 else 1
    else
      if StrLess(Field(b, key), Field(a, key)) then -1 else 1
  }

  /** The strict order on the sort key alone: instants for timestamps, string order otherwise. */
  predicate KeyLess(a: User, b: User, key: SortKey, ts: string -> int)
  {
    if IsTimeKey(key) then ts(Field(a, key)) < ts(Field(b, key))
    else StrLess(Field(a, key), Field(b, key))
  }

  /** The comparator asks for `a` before `b` exactly when `a`'s key is smaller (larger, descending). */
  lemma CompareMeaning(a: User, b: User, key: SortKey, dir: Order, ts: string -> int)
    ensures Compare(a, b, key, dir, ts) < 0 <==>
            if dir == Asc then KeyLess(a, b, key, ts) else KeyLess(b, a, key, ts)
  {
  }

  /** The comparator does not ask for `b` to move before `a`. */
  predicate InOrder(a: User, b: User, key: SortKey, dir: Order, ts: string -> int)
  {
    Compare(b, a, key, dir, ts) >= 0
  }

  /** Adjacent rows are never in the order the comparator wants swapped. */
  predicate Sorted(s: seq<User>, key: SortKey, dir: Order, ts: string -> int)
  {
    forall i :: 0 < i < |s| ==> InOrder(s[i - 1], s[i], key, dir, ts)
  }

  lemma InOrderTotal(a: User, b: User, key: SortKey, dir: Order, ts: string -> int)
    ensures InOrder(a, b, key, dir, ts) || InOrder(b, a, key, dir, ts)
  {
    if !IsTimeKey(key) && StrLess(Field(a, key), Field(b, key)) && StrLess(Field(b, key), Field(a, key)) {
      StrLessTransitive(Field(a, key), Field(b, key), Field(a, key));
      StrLessIrreflexive(Field(a, key));
    }
  }

  lemma InOrderTransitive(a: User, b: User, c: User, key: SortKey, dir: Order, ts: string -> int)
    requires InOrder(a, b, key, dir, ts) && InOrder(b, c, key, dir, ts)
    ensures InOrder(a, c, key, dir, ts)
  {
    if !IsTimeKey(key) {
      var x, y, z := Field(a, key), Field(b, key), Field(c, key);
      if dir == Asc {
        // neither y < x nor z < y; show not z < x
        if StrLess(z, x) {
          StrLessTrichotomy(x, y);
          if StrLess(x, y) {
            StrLessTransitive(z, x, y);
          }
        }
      } else {
        if StrLess(x, z) {
          StrLessTrichotomy(x, y);
          if StrLess(y, x) {
            StrLessTransitive(y, x, z);
          }
        }
      }
    }
  }

  /** Every earlier row is in order with every later row. */
  predicate SortedPairwise(s: seq<User>, key: SortKey, dir: Order, ts: string -> int)
  {
    forall p, q :: 0 <= p < q < |s| ==> InOrder(s[p], s[q], key, dir, ts)
  }

  /** Sortedness of neighbours extends to all pairs. */
  lemma {:induction false} SortedIsPairwise(s: seq<User>, key: SortKey, dir: Order, ts: string -> int)
    requires Sorted(s, key, dir, ts)
    ensures SortedPairwise(s, key, dir, ts)
    decreases |s|
  {
    if |s| > 1 {
      var t := s[..|s| - 1];
      assert Sorted(t, key, dir, ts);
      SortedIsPairwise(t, key, dir, ts);
      forall p | 0 <= p < |s| - 1
        ensures InOrder(s[p], s[|s| - 1], key, dir, ts)
      {
        if p < |s| - 2 {
          assert InOrder(t[p], t[|s| - 2], key, dir, ts);
          InOrderTransitive(s[p], s[|s| - 2], s[|s| - 1], key, dir, ts);
        }
      }
    }
  }

  /**
   * What sortedness means for the key: ascending, timestamps never
   * decrease and strings are equal or increasing from one row to the
   * next; descending, the reverse.
   */
  lemma SortedMeaning(s: seq<User>, key: SortKey, dir: Order, ts: string -> int, i: int)
    requires Sorted(s, key, dir, ts)
    requires 0 < i < |s|
    ensures IsTimeKey(key) && dir == Asc ==> ts(Field(s[i - 1], key)) <= ts(Field(s[i], key))
    ensures IsTimeKey(key) && dir == Desc ==> ts(Field(s[i - 1], key)) >= ts(Field(s[i], key))
    ensures !IsTimeKey(key) && dir == Asc ==>
              Field(s[i - 1], key) == Field(s[i], key) || StrLess(Field(s[i - 1], key), Field(s[i], key))
    ensures !IsTimeKey(key) && dir == Desc ==>
              Field(s[i - 1], key) == Field(s[i], key) || StrLess(Field(s[i], key), Field(s[i - 1], key))
  {
    assert InOrder(s[i - 1], s[i], key, dir, ts);
    StrLessTrichotomy(Field(s[i - 1], key), Field(s[i], key));
  }

  /**
   * The state of one insertion pass: the row being inserted sits at `j`,
   * the rows `0..i` without it are in order, and it is in order with
   * every row after it.
   */
  predicate Inserting(s: seq<User>, j: int, i: int, key: SortKey, dir: Order, ts: string -> int)
    requires 0 <= j <= i < |s|
  {
    && (forall p, q :: 0 <= p < q <= i && p != j && q != j ==> InOrder(s[p], s[q], key, dir, ts))
    && (forall q :: j < q <= i ==> InOrder(s[j], s[q], key, dir, ts))
  }

  lemma InsertingStart(s: seq<User>, i: int, key: SortKey, dir: Order, ts: string -> int)
    requires 0 <= i < |s| && SortedPairwise(s[..i], key, dir, ts)
    ensures Inserting(s, i, i, key, dir, ts)
  {
  }

  /** Swapping the inserted row with a predecessor that should follow it keeps the pass's invariant. */
  lemma InsertingStep(s: seq<User>, j: int, i: int, key: SortKey, dir: Order, ts: string -> int)
    requires 0 < j <= i < |s| && Inserting(s, j, i, key, dir, ts)
    requires Compare(s[j], s[j - 1], key, dir, ts) < 0
    ensures Inserting(s[j - 1 := s[j]][j := s[j - 1]], j - 1, i, key, dir, ts)
  {
    InOrderTotal(s[j], s[j - 1], key, dir, ts);
  }

  /** When the inserted row's predecessor may precede it, the rows `0..i` are in order. */
  lemma InsertingDone(s: seq<User>, j: int, i: int, key: SortKey, dir: Order, ts: string -> int)
    requires 0 <= j <= i < |s| && Inserting(s, j, i, key, dir, ts)
    requires j == 0 || Compare(s[j], s[j - 1], key, dir, ts) >= 0
    ensures SortedPairwise(s[..i + 1], key, dir, ts)
  {
    forall p, q | 0 <= p < q <= i
      ensures InOrder(s[p], s[q], key, dir, ts)
    {
      if q == j && p < j - 1 {
        InOrderTransitive(s[p], s[j - 1], s[j], key, dir, ts);
      }
    }
  }

  /** Exchanging two neighbours keeps the same rows. */
  lemma SwapKeepsRows(s: seq<User>, j: int)
    requires 0 < j < |s|
    ensures multiset(s[j - 1 := s[j]][j := s[j - 1]]) == multiset(s)
  {
    var t := s[j - 1 := s[j]];
    assert multiset(t) == multiset(s) - multiset{s[j - 1]} + multiset{s[j]};
    assert multiset(t[j := s[j - 1]]) == multiset(t) - multiset{s[j]} + multiset{s[j - 1]};
  }

  /** One insertion pass: moves `a[i]` left until the rows `0..i` are in order. */
  method InsertRow(a: array<User>, i: int, key: SortKey, dir: Order, ts: string -> int)
    requires 0 <= i < a.Length && SortedPairwise(a[..i], key, dir, ts)
    modifies a
    ensures SortedPairwise(a[..i + 1], key, dir, ts)
    ensures multiset(a[..]) == multiset(old(a[..]))
    ensures a[i + 1..] == old(a[i + 1..])
  {
    InsertingStart(a[..], i, key, dir, ts);
    var j := i;
    while 0 < j && Compare(a[j], a[j - 1], key, dir, ts) < 0
      invariant 0 <= j <= i
      invariant Inserting(a[..], j, i, key, dir, ts)
      invariant multiset(a[..]) == multiset(old(a[..]))
      invariant a[i + 1..] == old(a[i + 1..])
    {
      ghost var s := a[..];
      InsertingStep(s, j, i, key, dir, ts);
      SwapKeepsRows(s, j);
      a[j - 1], a[j] := a[j], a[j - 1];
      assert a[..] == s[j - 1 := s[j]][j := s[j - 1]];
      j := j - 1;
    }
    InsertingDone(a[..], j, i, key, dir, ts);
  }

  /**
   * `a.sort(comparator)`, in place: afterwards the array is sorted on
   * `key` in direction `dir` and holds the same users as before. The
   * relative order of rows with equal keys is not specified.
   */
  method SortUsers(a: array<User>, key: SortKey, dir: Order, ts: string -> int)
    modifies a
    ensures Sorted(a[..], key, dir, ts)
    ensures multiset(a[..]) == multiset(old(a[..]))
  {
    var i := 0;
    while i < a.Length
      invariant 0 <= i <= a.Length
      invariant SortedPairwise(a[..i], key, dir, ts)
      invariant multiset(a[..]) == multiset(old(a[..]))
    {
      InsertRow(a, i, key, dir, ts);
      i := i + 1;
    }
    assert a[..a.Length] == a[..];
  }

  // ---------------------------------------------------------------------
  // Stage 4: the page window

  /** `Array.prototype.slice`'s reading of an index: negative counts from the end, then clamped. */
  function SliceIndex(i: int, len: nat): (r: nat)
    ensures r <= len
    ensures 0 <= i <= len ==> r == i
  {
    if i < 0 then (if len + i < 0 then 0 else len + i)
    else if i < len then i
    else len
  }

  /** `s.slice(start, end)`. */
  function Slice<T>(s: seq<T>, start: int, end: int): (r: seq<T>)
    ensures |r| <= |s|
  {
    var from, to := SliceIndex(start, |s|), SliceIndex(end, |s|);
    if from < to then s[from..to] else []
  }

  /** `paginatedUsers`: the window `[page * rowsPerPage, page * rowsPerPage + rowsPerPage)`. */
  function PageWindow<T>(s: seq<T>, page: int, rowsPerPage: int): seq<T>
  {
    Slice(s, page * rowsPerPage, page * rowsPerPage + rowsPerPage)
  }

  /**
   * For a page index and page size that are not negative, the window is
   * the clipped range of the sorted list, holds at most one page, and is
   * empty past the end.
   */
  lemma PageWindowSpec<T>(s: seq<T>, page: nat, rowsPerPage: nat)
    ensures var start := page * rowsPerPage;
            var end := if start + rowsPerPage <= |s| then start + rowsPerPage else |s|;
            PageWindow(s, page, rowsPerPage) == if start < |s| then s[start..end] else []
    ensures |PageWindow(s, page, rowsPerPage)| <= rowsPerPage
    ensures page * rowsPerPage >= |s| ==> PageWindow(s, page, rowsPerPage) == []
  {
    var start := page * rowsPerPage;
    assert PageWindow(s, page, rowsPerPage) == Slice(s, start, start + rowsPerPage);
    SliceWindow(s, start, rowsPerPage);
  }

  /** A `slice` of `size` rows from a non-negative `start`, clipped at the end of the list. */
  lemma SliceWindow<T>(s: seq<T>, start: nat, size: nat)
    ensures var end := if start + size <= |s| then start + size else |s|;
            Slice(s, start, start + size) == if start < |s| then s[start..end] else []
    ensures |Slice(s, start, start + size)| <= size
  {
  }

  /** Position `r` of a window of `size` rows from `start` is row `start + r`, when that row exists. */
  lemma SliceAt<T>(s: seq<T>, start: nat, size: nat, r: nat)
    requires r < size && start + r < |s|
    ensures r < |Slice(s, start, start + size)|
    ensures Slice(s, start, start + size)[r] == s[start + r]
  {
  }

  /** Every row lands on exactly the page and position its index says: paging skips nobody. */
  lemma PageOfIndex<T>(s: seq<T>, rowsPerPage: nat, i: nat)
    requires 0 < rowsPerPage && i < |s|
    ensures i % rowsPerPage < |PageWindow(s, i / rowsPerPage, rowsPerPage)|
    ensures PageWindow(s, i / rowsPerPage, rowsPerPage)[i % rowsPerPage] == s[i]
  {
    var page, r := i / rowsPerPage, i % rowsPerPage;
    assert i == page * rowsPerPage + r;
    SliceAt(s, page * rowsPerPage, rowsPerPage, r);
  }

  // ---------------------------------------------------------------------
  // The whole derivation

  /**
   * One render: `filteredUsers`, `sortedUsers` (the same array, sorted in
   * place), `paginatedUsers`, and the count handed to the pagination
   * control, which is read from the filtered array after the sort.
   */
  method DeriveView(users: seq<User>, filter: string, statusFilter: string,
                    key: SortKey, dir: Order, page: int, rowsPerPage: int, ts: string -> int)
    returns (sorted: seq<User>, paginated: seq<User>, count: nat)
    ensures multiset(sorted) == multiset(FilterUsers(users, filter, statusFilter))
    ensures Sorted(sorted, key, dir, ts)
    ensures paginated == PageWindow(sorted, page, rowsPerPage)
    ensures count == |FilterUsers(users, filter, statusFilter)|
  {
    var filtered := FilterUsers(users, filter, statusFilter);
    var rows := new User[|filtered|](i requires 0 <= i < |filtered| => filtered[i]);
    assert rows[..] == filtered;
    SortUsers(rows, key, dir, ts);
    sorted := rows[..];
    paginated := Slice(sorted, page * rowsPerPage, page * rowsPerPage + rowsPerPage);
    assert |sorted| == |multiset(sorted)| == |multiset(filtered)| == |filtered|;
    count := rows.Length;
  }

  // ---------------------------------------------------------------------
  // Two renders of the same state

  /** Neither row is ordered before the other: their keys tie. */
  predicate SameKey(a: User, b: User, key: SortKey, dir: Order, ts: string -> int)
  {
    InOrder(a, b, key, dir, ts) && InOrder(b, a, key, dir, ts)
  }

  /** Tied rows carry the same instant (timestamp keys) or the same string. */
  lemma SameKeyMeaning(a: User, b: User, key: SortKey, dir: Order, ts: string -> int)
    requires SameKey(a, b, key, dir, ts)
    ensures IsTimeKey(key) ==> ts(Field(a, key)) == ts(Field(b, key))
    ensures !IsTimeKey(key) ==> Field(a, key) == Field(b, key)
  {
    CompareMeaning(a, b, key, dir, ts);
    CompareMeaning(b, a, key, dir, ts);
    StrLessTrichotomy(Field(a, key), Field(b, key));
  }

  /**
   * Two sorted permutations of the same rows, such as the sorted lists of
   * two renders of one state, agree on the sort key position by position.
   */
  lemma SortedPermutationsAgree(r1: seq<User>, r2: seq<User>, key: SortKey, dir: Order, ts: string -> int)
    requires multiset(r1) == multiset(r2)
    requires Sorted(r1, key, dir, ts) && Sorted(r2, key, dir, ts)
    ensures |r1| == |r2|
    ensures forall i :: 0 <= i < |r1| ==> SameKey(r1[i], r2[i], key, dir, ts)
    ensures IsTimeKey(key) ==> forall i :: 0 <= i < |r1| ==> ts(Field(r1[i], key)) == ts(Field(r2[i], key))
    ensures !IsTimeKey(key) ==> forall i :: 0 <= i < |r1| ==> Field(r1[i], key) == Field(r2[i], key)
  {
    var le := (a: User, b: User) => InOrder(a, b, key, dir, ts);
    forall a: User
      ensures le(a, a)
    {
      InOrderTotal(a, a, key, dir, ts);
    }
    forall a: User, b: User, c: User | le(a, b) && le(b, c)
      ensures le(a, c)
    {
      InOrderTransitive(a, b, c, key, dir, ts);
    }
    SortedIsPairwise(r1, key, dir, ts);
    SortedIsPairwise(r2, key, dir, ts);
    PermutationsTie(r1, r2, le);
    forall i | 0 <= i < |r1|
      ensures IsTimeKey(key) ==> ts(Field(r1[i], key)) == ts(Field(r2[i], key))
      ensures !IsTimeKey(key) ==> Field(r1[i], key) == Field(r2[i], key)
    {
      SameKeyMeaning(r1[i], r2[i], key, dir, ts);
    }
  }

  /**
   * When no two different rows tie on the key, the sorted list is
   * determined: two renders of the same state show the same rows on
   * every page.
   */
  lemma RendersAgreeWithoutTies(users: seq<User>, filter: string, statusFilter: string,
                                key: SortKey, dir: Order, page: int, rowsPerPage: int,
                                ts: string -> int, r1: seq<User>, r2: seq<User>)
    requires var f := FilterUsers(users, filter, statusFilter);
             forall a, b :: a in f && b in f && a != b ==> !SameKey(a, b, key, dir, ts)
    requires multiset(r1) == multiset(FilterUsers(users, filter, statusFilter)) && Sorted(r1, key, dir, ts)
    requires multiset(r2) == multiset(FilterUsers(users, filter, statusFilter)) && Sorted(r2, key, dir, ts)
    ensures r1 == r2
    ensures PageWindow(r1, page, rowsPerPage) == PageWindow(r2, page, rowsPerPage)
  {
    var f := FilterUsers(users, filter, statusFilter);
    SortedPermutationsAgree(r1, r2, key, dir, ts);
    forall i | 0 <= i < |r1|
      ensures r1[i] == r2[i]
    {
      assert r1[i] in multiset(f) && r2[i] in multiset(f);
    }
  }

  // ---------------------------------------------------------------------
  // The two users of the component's story, as test vectors

  const Gourab: User := User("1", "gourab", "2023-08-15T12:34:56Z", "2023-08-16T12:34:56Z", "qSdRb@example.com", "Active")
  const Ram: User := User("2", "ram", "2023-08-14T12:34:56Z", "2023-08-15T12:34:56Z", "new@example.com", "Inactive")

  /** A sorted permutation of two distinct rows is the one whose pair is in order. */
  lemma TwoRowsSorted(r: seq<User>, x: User, y: User, key: SortKey, dir: Order, ts: string -> int)
    requires x != y && !InOrder(y, x, key, dir, ts)
    requires multiset(r) == multiset([x, y]) && Sorted(r, key, dir, ts)
    ensures r == [x, y]
  {
  }

  /**
   * Sorting the story's users on `createdOn`: ascending puts the earlier
   * (2023-08-14) user first, descending last, whatever the parser gives
   * as long as it orders the two instants correctly.
   */
  lemma StoryUsersByCreatedOn(r: seq<User>, dir: Order, ts: string -> int)
    requires ts(Ram.createdOn) < ts(Gourab.createdOn)
    requires multiset(r) == multiset([Gourab, Ram]) && Sorted(r, CreatedOn, dir, ts)
    ensures dir == Asc ==> r == [Ram, Gourab]
    ensures dir == Desc ==> r == [Gourab, Ram]
  {
  }

  /** Sorting the story's users on `username` ascending gives "gourab", then "ram". */
  lemma StoryUsersByUsername(r: seq<User>, ts: string -> int)
    requires multiset(r) == multiset([Ram, Gourab]) && Sorted(r, Username, Asc, ts)
    ensures r == [Gourab, Ram]
  {
  }

  /** Seven rows, five per page: a full first page, two rows on the second, none on the third. */
  lemma SevenRowsFivePerPage<T>(s: seq<T>)
    requires |s| == 7
    ensures PageWindow(s, 0, 5) == s[..5]
    ensures PageWindow(s, 1, 5) == s[5..]
    ensures PageWindow(s, 2, 5) == []
  {
  }

  /** A status outside the known three is kept by "All", dropped by "Active", and drawn in the neutral colour. */
  lemma UnknownStatusFallback(u: User)
    requires u.status == "Archived"
    ensures FilterByStatus([u], UserSummary.AllStatuses) == [u]
    ensures FilterByStatus([u], "Active") == []
    ensures ChipColorOf(u.status) == Default
  {
  }

  // ---------------------------------------------------------------------
  // Chip colour

  datatype ChipColor = Success | Error | Primary | Default

  /** `getChipColor`: a total mapping from status to the chip's colour. */
  function ChipColorOf(status: string): (r: ChipColor)
    ensures r == Success <==> status == "Active"
    ensures r == Error <==> status == "Inactive"
    ensures r == Primary <==> status == "New"
    ensures r == Default <==> status !in {"Active", "Inactive", "New"}
  {
    match status
    case "Active" => Success
    case "Inactive" => Error
    case "New" => Primary
    case _ => Default
  }

  // ---------------------------------------------------------------------
  // Sort header clicks

  datatype SortState = SortState(orderBy: SortKey, order: Order)

  /** `handleRequestSort(property)` as a function of the sort state. */
  function NextSort(s: SortState, property: SortKey): (r: SortState)
    ensures r.orderBy == property
    ensures r.order == Desc <==> s.orderBy == property && s.order == Asc
  {
    SortState(property, if s.orderBy == property && s.order == Asc then Desc else Asc)
  }

  /** A click on a header other than the current one always starts ascending. */
  lemma NewHeaderStartsAscending(s: SortState, property: SortKey)
    requires property != s.orderBy
    ensures NextSort(s, property) == SortState(property, Asc)
  {
  }

  /** Once a header is current, each further click on it flips the direction. */
  lemma RepeatedClickFlips(s: SortState, property: SortKey)
    ensures var once := NextSort(s, property);
            var twice := NextSort(once, property);
            twice.orderBy == property && twice.order != once.order
  {
  }

  // ---------------------------------------------------------------------
  // The table's view state

  const DefaultColumns: seq<string> := ["username", "email", "createdOn", "updatedOn", "status"]

  class TableState {
    var order: Order
    var orderBy: SortKey
    var page: int
    var rowsPerPage: int
    var filter: string
    var statusFilter: string
    var columns: seq<string>

    constructor ()
      ensures order == Asc && orderBy == Username
      ensures page == 0 && rowsPerPage == 5
      ensures filter == "" && statusFilter == UserSummary.AllStatuses
      ensures columns == DefaultColumns
    {
      order, orderBy := Asc, Username;
      page, rowsPerPage := 0, 5;
      filter, statusFilter := "", UserSummary.AllStatuses;
      columns := DefaultColumns;
    }

    /** `handleRequestSort`: changes the sort state only. */
    method RequestSort(property: SortKey)
      modifies this
      ensures SortState(orderBy, order) == NextSort(SortState(old(orderBy), old(order)), property)
      ensures page == old(page) && rowsPerPage == old(rowsPerPage)
      ensures filter == old(filter) && statusFilter == old(statusFilter) && columns == old(columns)
    {
      var isAsc := orderBy == property && order == Asc;
      order := if isAsc then Desc else Asc;
      orderBy := property;
    }

    /** `handleChangePage`: changes the page index only. */
    method ChangePage(newPage: int)
      modifies this
      ensures page == newPage
      ensures order == old(order) && orderBy == old(orderBy) && rowsPerPage == old(rowsPerPage)
      ensures filter == old(filter) && statusFilter == old(statusFilter) && columns == old(columns)
    {
      page := newPage;
    }

    /** `handleChangeRowsPerPage`, given the already parsed size: new size, back to page 0. */
    method ChangeRowsPerPage(newSize: int)
      modifies this
      ensures rowsPerPage == newSize && page == 0
      ensures order == old(order) && orderBy == old(orderBy)
      ensures filter == old(filter) && statusFilter == old(statusFilter) && columns == old(columns)
    {
      rowsPerPage := newSize;
      page := 0;
    }

    /** `handleStatusFilterChange`: changes the status filter only; the page index is kept. */
    method StatusFilterChange(newFilter: string)
      modifies this
      ensures statusFilter == newFilter
      ensures page == old(page) && rowsPerPage == old(rowsPerPage)
      ensures order == old(order) && orderBy == old(orderBy)
      ensures filter == old(filter) && columns == old(columns)
    {
      statusFilter := newFilter;
    }

    /** `setColumns`, as called by the search popover. */
    method SetColumns(newColumns: seq<string>)
      modifies this
      ensures columns == newColumns
      ensures page == old(page) && rowsPerPage == old(rowsPerPage)
      ensures order == old(order) && orderBy == old(orderBy)
      ensures filter == old(filter) && statusFilter == old(statusFilter)
    {
      columns := newColumns;
    }

    /**
     * A checkbox of the search popover, wired to `setColumns`: afterwards
     * the table's column list is the popover's new active list.
     */
    method ColumnCheckboxChange(popover: SearchField.FilterPopover, column: string)
      modifies this, popover
      ensures popover.activeFilters == SearchField.ToggleColumn(old(popover.activeFilters), column)
      ensures columns == popover.activeFilters
      ensures popover.searchValues == old(popover.searchValues)
      ensures popover.durationFilters == old(popover.durationFilters)
      ensures popover.filterCount == old(popover.filterCount)
      ensures popover.open == old(popover.open)
      ensures page == old(page) && rowsPerPage == old(rowsPerPage)
      ensures order == old(order) && orderBy == old(orderBy)
      ensures filter == old(filter) && statusFilter == old(statusFilter)
    {
      var newColumns := popover.ColumnChange(column);
      SetColumns(newColumns);
    }

    /**
     * A click on a summary card, wired to `handleStatusFilterChange`: the
     * panel toggles its highlight, and the status filter takes the
     * reported category when there is one.
     */
    method SummaryCardClick(panel: UserSummary.SummaryPanel, title: string)
      modifies this, panel
      ensures panel.activeCard == UserSummary.NextActiveCard(old(panel.activeCard), title)
      ensures statusFilter == match UserSummary.CategoryFor(title)
                              case Some(c) => c
                              case None => old(statusFilter)
      ensures page == old(page) && rowsPerPage == old(rowsPerPage)
      ensures order == old(order) && orderBy == old(orderBy)
      ensures filter == old(filter) && columns == old(columns)
    {
      var emitted := panel.CardClick(title);
      if emitted.Some? {
        StatusFilterChange(emitted.value);
      }
    }
  }
}
